=== FILE: README.md ===
# SmartMark attendance core in Dafny

SmartMark is a Streamlit attendance app. It takes attendance by recognizing
faces. A gallery of known faces is built from the `images/` folder: each file
gives its first face encoding and its file stem as the student's name. A
face in a camera frame or an uploaded picture gets the name of the nearest
gallery entry when that entry counts as a match, and "Unknown" otherwise.
Recognized names are then logged in the session's attendance list, or sent
to a small Flask endpoint that stores attendance records in memory.

This project models that core as pure functions. The face library's
`face_distance` and `compare_faces` become two parameters, `dist` and
`close`, applied entrywise to an abstract encoding type `E`. Camera frames
become the sequence of detector results they produce. The clock becomes a
timestamp string.

- `Py` (py.dfy): the Python values the core touches:
  - `Option` and `Result`, and the exceptions the code can raise;
  - a JSON `Value` with Python truthiness, and `dict.get`;
  - the names side of `zip`.
- `Paths` (paths.dfy): the file-name handling:
  - `os.path.basename` and `os.path.splitext` with their POSIX rules,
    including the leading-dot rule of `splitext`;
  - the `*.*` glob pattern;
  - the `images/{enrollment}.jpg` path.
- `Facerec` (facerec.dfy): `SimpleFacerec`.
  - `load_encoding_images` is `Load`.
  - `detect_known_faces` is `Detect`. It decides each face at the first
    minimum of the distances (`np.argmin`) and scales boxes back up by
    `/ 0.25` followed by `astype(int)`.
  - simple_facerec.py and simple_facerec2.py have the same logic and share
    this one model. Loading is at lines 26-44 of both files; detection is at
    58-75 and 64-81.
- `SessionLog` (session_log.dfy): the attendance list in the session:
  - `log_attendance`;
  - the reachable "Face Recognition" branch of SmartMark.py;
  - the `recognized_names` dedup on attendance.py's picture and webcam paths.
- `Accounts` (accounts.dfy): SmartMark.py's login lookup, and the signup
  forms of SmartMark.py and attendance.py. The `users/` directory is the
  list of records its pickle files hold.
- `Backend` (backend.dfy): the `/mark-attendance` endpoint.
- `MainPage` (main_page.dfy): main.py's `facial_recognition_page` and its
  API call. The lemma `PageAgainstBackend` checks this page against the
  backend model.

Behaviour of the code worth knowing:

- Empty gallery: if a frame has a face and the gallery is empty,
  `np.argmin` of an empty list raises. `Detect` returns
  `Raised(ArgMinOfEmpty)`.
- Unreadable image: an image that `cv2.imread` cannot read makes
  `cvtColor` raise partway through loading. Entries loaded before it stay
  (`Crashed`).
- Reloading: a second load appends to the gallery it is given. SmartMark's
  signup reloads the session's recognizer. Every entry loaded before the
  signup then appears a second time, and the new image's entry appears
  once (`ReloadDuplicates`). An image saved again under an existing
  enrollment number leaves two encodings under that name. If the reload
  meets an unreadable image, it raises after the user has already been
  saved.
- Enrollment numbers with '/': `save_user_data` creates only `users/`, so
  opening `users/{enrollment}.pkl` raises `FileNotFoundError` in both
  signups. Nothing after the write runs: the cache, the reload and the
  success message are skipped.
- "Unknown" is recorded: SmartMark.py logs every name of the first frame
  with a face, "Unknown" included. attendance.py puts "Unknown" in
  `recognized_names` like any other name.
- Webcam signup: attendance.py's Sign Up test reads `user_image` and
  `capture_button`, and each is assigned in only one mode. So in webcam
  mode, and in upload mode without a file, pressing Sign Up raises
  `NameError`.
- Hidden signup images: the `*.*` glob skips names that start with a dot.
  So an image saved for an enrollment number that starts with '.' is never
  loaded (`ImagePathListed`).
- main.py session keys: no code in main.py stores "student_id" in the
  session. So the page is modelled for any session contents, given as a
  parameter.

## Model

| member | source | states |
|---|---|---|
| Paths.BasenameSpec | simple_facerec.py:31 | the basename holds no '/', is a suffix of the path, and is either the whole path or preceded by '/' |
| Paths.SplitExtSpec | simple_facerec.py:32 | stem plus extension is the name again; the extension is empty or one '.' followed by no '.' or '/'; for a file name it is non-empty exactly when some '.' follows a character other than '.' |
| Paths.GlobStemNonEmpty | simple_facerec.py:22 | every file the `*.*` pattern matches gives a non-empty name |
| Paths.ImagePathListed | SmartMark.py:134 | with no '/' in the enrollment number, the `*.*` glob lists `images/{enrollment}.jpg` exactly when the number is non-empty and does not start with '.' |
| Paths.ImagePathStem | SmartMark.py:134 | the stem of `images/{enrollment}.jpg` is the enrollment number, for a number with no '/' that is not all dots |
| Facerec.LoadStep | simple_facerec.py:36-41 | a file without faces leaves the gallery unchanged; otherwise exactly its first encoding and its stem are appended, keeping the two lists the same length |
| Facerec.Load | simple_facerec.py:26-44 | loading keeps encodings and names the same length; it completes exactly when no file is unreadable, and otherwise stops at the first unreadable file |
| Facerec.LoadContents | simple_facerec2.py:26-41 | the loaded gallery is the old one extended, in file order, by the first encoding and stem of each file with a face before the first unreadable one |
| Facerec.InitialLoad | SmartMark.py:42-46 | a freshly created recognizer loaded once holds exactly the first encoding and stem of each file with a face before the first unreadable one |
| Facerec.KeptFromFaces | simple_facerec2.py:36-41 | every added entry comes from a file with at least one face: its first encoding and its stem |
| Facerec.ReloadDuplicates | SmartMark.py:155-156 | loading the same readable folder twice gives every entry twice |
| Facerec.GlobbedNamesNonEmpty | simple_facerec.py:22-41 | a gallery loaded from globbed files has only non-empty names |
| Facerec.FirstArgMin | simple_facerec.py:66 | the index is a minimum of the distances and comes before every other minimum |
| Facerec.Decide | simple_facerec.py:59-70 | a face gets the gallery name at the first nearest entry when that entry matches, and "Unknown" otherwise; the result is always a gallery name or "Unknown" |
| Facerec.ThresholdDecision | simple_facerec.py:61-68 | under a distance tolerance, a face within tolerance of some entry gets the nearest entry's name, and a face beyond tolerance of all entries gets "Unknown" |
| Facerec.SelfMatch | simple_facerec2.py:71-74 | a gallery encoding presented again is named after the first entry at distance zero from it, which is itself when no earlier entry is |
| Facerec.Upscale | simple_facerec.py:74-75 | dividing a coordinate by 0.25 and truncating gives four times the coordinate |
| Facerec.Detect | simple_facerec2.py:64-81 | raises exactly when the gallery is empty and a face was found; otherwise there is one decided name per face and one upscaled box per location |
| Facerec.DetectPairsEveryName | simple_facerec.py:55-75 | with one encoding per location, zipping boxes with names visits every name detection returned |
| SessionLog.LogAttendance | SmartMark.py:81-84 | the name is in the list afterwards; a name already listed leaves the list unchanged; otherwise the list grows by that name alone, and stays free of duplicates |
| SessionLog.LogAttendanceIdempotent | SmartMark.py:83-84 | logging the same name a second time leaves the list as it was after the first |
| SessionLog.LogAll | SmartMark.py:207-208 | logging several names adds exactly those names, keeps the earlier list as a prefix, and keeps it free of duplicates |
| SessionLog.LogAllFresh | SmartMark.py:207-208 | logging several names appends exactly the names not already listed, each once, in the order of their first occurrence |
| SessionLog.FreshMembers | SmartMark.py:83-84 | the names appended are exactly those in the list being logged that were not already listed |
| SessionLog.SmartMarkRecognize | SmartMark.py:186-210 | the login prompt is shown exactly when there is no enrollment number, and then nothing is logged; otherwise the first frame that raised or had a face ends the loop: if it had a face, attendance is marked and all its names are logged, the fresh ones appended in first-logged order; if it raised, that frame's exception is reported; a webcam failure is reported exactly when no frame had a face |
| SessionLog.SmartMarkIgnoresLaterFrames | SmartMark.py:193-210 | frames after the first one with a face do not affect the outcome |
| SessionLog.SmartMarkLogsUnknown | SmartMark.py:206-208 | "Unknown" in the first frame with faces ends up in the attendance list |
| SessionLog.NewTracker | attendance.py:60-65 | a new session starts with nothing recognized and in a consistent state |
| SessionLog.Observe | attendance.py:188-190 | a recognized name is never logged again; a new name is logged once and becomes recognized; consistency is kept |
| SessionLog.ObserveAllSpec | attendance.py:209-212 | over a list of names the recognized set grows by exactly those names, and a call is made exactly for the names not recognized before |
| SessionLog.ObserveAllFresh | attendance.py:209-212 | in a consistent session, the calls a list of names causes are the fresh names in `zip` order, each at its first occurrence |
| SessionLog.ObserveAllIdempotent | attendance.py:184-190 | showing the same names again in a session logs nothing new |
| SessionLog.ProcessFrames | attendance.py:178-212 | a run ends with the first exception detection raised, and without one exactly when every detection succeeded |
| SessionLog.ProcessFramesDedup | attendance.py:178-212 | over a whole run, `log_attendance` is called at most once per name, exactly for the names seen that were not recognized before, in the order they are first seen, and the list equals the recognized set |
| Accounts.FindByEnrollment | SmartMark.py:172 | finds the first record with the enrollment number, and finds nothing exactly when no record has it |
| Accounts.Login | SmartMark.py:170-179 | the welcome is shown exactly when some record has the number; then the session is logged in with the first such record, and otherwise it is unchanged |
| Accounts.SaveUser | SmartMark.py:14-28 | writing raises FileNotFoundError for `users/{enrollment}.pkl` exactly when the enrollment number holds a '/'; otherwise `users/` holds the new record and no other record under its number, and records under other numbers are kept |
| Accounts.SmartMarkSignup | SmartMark.py:123-160 | a user is saved exactly when all four fields and an image are given and the number holds no '/', which raises with nothing else changed; the image path is `images/{enrollment}.jpg`; a cached user list gets the record appended, and a missing cache is filled from `users/`; the session's recognizer, if any, reloads `images/` |
| Accounts.SignupThenLogin | SmartMark.py:143-176 | right after a signup whose record could be written, whether or not a user list was cached, logging in with the new enrollment number succeeds |
| Accounts.AttendanceSignup | attendance.py:85-123 | Sign Up raises NameError exactly in webcam mode or without an uploaded file, and FileNotFoundError when the filled form's number holds a '/'; it saves exactly when a file was uploaded, all fields are filled and the number holds no '/' |
| Accounts.UploadSignupsAgree | attendance.py:106-121 | with an uploaded file, attendance.py's signup ends exactly as SmartMark.py's does: same checks, same record, same error |
| Accounts.SavedImageNamedByEnrollment | attendance.py:113-120 | the `*.*` glob lists the saved image exactly when the enrollment number does not start with '.', and its stem is the enrollment number unless the number is all dots |
| Accounts.SavedImageLoads | SmartMark.py:134-156 | a saved image with a face, for a number not starting with '.', is listed and gives one gallery entry: its first encoding under the enrollment number |
| Backend.MarkAttendance | backend.py:15-30 | a request missing a truthy field gets 400 and stores nothing; a valid one appends exactly one record for its fields and time, and the reply lists all records |
| Backend.RepeatedRequestAppendsTwice | backend.py:24-28 | the same request sent twice stores two records for the same student and subject |
| MainPage.SelectName | main.py:144-150 | the last name other than "Unknown" in a frame wins; a frame with none keeps the previous name |
| MainPage.Scan | main.py:134-156 | a recognized name is non-empty, is not "Unknown", and was paired with a box in some frame |
| MainPage.ScanStopsAtFirstKnownFrame | main.py:134-167 | when names are non-empty, the loop stops at the first frame with a name other than "Unknown" and takes that frame's last such name |
| MainPage.PayloadIgnoresName | main.py:22-26 | two runs that call the API send the same payload whatever face was recognized: the session's student id and subject |
| MainPage.RecognitionPage | main.py:115-170 | without both session keys the page stops; the API is called exactly when a face is recognized, with the session's student id and subject; success is reported exactly when the reply has a truthy "message", and a dict reply without one shows the failure message; with the camera open, "no face recognized" is shown exactly when the stream ends first, a detection exception is raised exactly when one comes first, and the name found is the one reported |
| MainPage.PageAgainstBackend | main.py:162-166 | against the backend, a call reports success exactly when the session's student id and subject are truthy, and only then is one record stored |

## Left out

- Face encodings: computing them, `face_locations`, and the numeric
  `face_distance` and `compare_faces`, with its 0.6 tolerance. They are
  parameters (`dist`, `close`). `ThresholdDecision` states what follows when
  `close` is a tolerance test.
- attendance.py's `TOLERANCE` slider: the code never passes it to
  detection.
- OpenCV pixel work: resizing, colour conversion and drawing boxes and
  labels. The box unpacking order used for drawing is also left out.
- Streamlit widgets and displayed messages. The model keeps only the
  outcomes that decide control flow.
- Disk I/O: pickle encoding, attendance.py's `load_user_data`, and the
  bytes `cv2.imwrite` writes. SmartMark's `users/` directory is a list of
  records, and the files of `images/` after a signup are a parameter.
- Accounts.SaveUser: treats every enrollment number holding '/' as naming
  a missing subdirectory of `users/`. Numbers whose directory part resolves
  to an existing directory, such as "./x", "/x" or a subdirectory created
  beforehand, are not modelled. There the write succeeds, and
  `fetch_all_users` lists the record only when the file lands directly in
  `users/`.
- Accounts.SaveUser: `os.listdir` gives no order, so the model lists a new
  pickle file last and keeps the others in place.
- Accounts.AttendanceSignup: returns the record attendance.py would save,
  without threading the `users/` directory through.
- attendance.py's webcam-capture path, which writes an image before
  signup. Its Sign Up raises first, as modelled.
- The clock: `datetime.now().strftime` is given as the `now` string.
- Flask and HTTP: request parsing, network errors of `requests.post`, and
  request bodies that are not JSON objects.
- Facerec.Upscale: assumes `c / 0.25` is exact in floating point. That
  holds for every pixel coordinate the detector returns.
- Cameras: the webcam is a finite sequence of detector results that ends
  when a read fails. Streams that never fail are not modelled.
- SmartMark.py's second "Face Recognition" branch, lines 274-308: it is
  unreachable behind the first.
- SmartMark.py's Users list and Dashboard, attendance.py's Dashboard, and
  main.py's timetable dashboard and page routing: they display state, or
  only route between pages.
- facial_recognition.py and image_comparison.py: standalone scripts outside
  the attendance flow.
- Distances are modelled as reals, so NaN distances, and `np.argmin`
  returning the first NaN, are not modelled.
- Floats in JSON values: only null, booleans, integers, strings, lists and
  objects are modelled.

=== FILE: accounts.dfy ===
/** Accounts: the login lookup of SmartMark.py over the cached user
    records, and the signup forms of SmartMark.py and attendance.py. The
    `users/` directory is the list of records its pickle files hold, in
    listing order; image bytes are not modelled. */
module Accounts {
  import opened Py
  import Paths
  import Facerec

  /** One user record as `save_user_data` stores it. */
  datatype User = User(name: string, enrollment: string, userClass: string,
                       semester: string, imagePath: string)

  /** The four text inputs of a signup form. */
  datatype SignupForm = SignupForm(name: string, enrollment: string, userClass: string, semester: string)

  /** Every text input is non-empty (Python truthiness of a string). */
  predicate AllFilled(f: SignupForm) {
    f.name != "" && f.enrollment != "" && f.userClass != "" && f.semester != ""
  }

  /** The record written for a completed form. */
  function RecordFor(f: SignupForm): (u: User)
    ensures u.enrollment == f.enrollment && u.name == f.name
    ensures u.imagePath == Paths.ImagePath(f.enrollment)
  {
    User(f.name, f.enrollment, f.userClass, f.semester, Paths.ImagePath(f.enrollment))
  }

  /** `next((user for user in users if user['enrollment'] == id), None)`:
      the position of the first record with that enrollment number. */
  function FindByEnrollment(users: seq<User>, id: string): (r: Option<nat>)
    ensures r.None? <==> forall i :: 0 <= i < |users| ==> users[i].enrollment != id
    ensures r.Some? ==> r.value < |users| && users[r.value].enrollment == id
    ensures r.Some? ==> forall i :: 0 <= i < r.value ==> users[i].enrollment != id
  {
    if |users| == 0 then None
    else if users[0].enrollment == id then Some(0)
    else
      match FindByEnrollment(users[1..], id)
      case None => None
      case Some(k) => Some(k + 1)
  }

  /** The session keys the login button writes. */
  datatype LoginState = LoginState(loggedIn: bool, user: Option<User>, enrollmentNumber: Option<string>)

  /** Session after pressing Login, and whether the welcome was shown
      (otherwise the "Invalid enrollment number" error was). */
  datatype LoginOutcome = LoginOutcome(state: LoginState, welcomed: bool)

  /** SmartMark.py's Login button over the cached user records. */
  function Login(s: LoginState, users: seq<User>, id: string): (r: LoginOutcome)
    ensures r.welcomed <==> exists i :: 0 <= i < |users| && users[i].enrollment == id
    ensures !r.welcomed ==> r.state == s
    ensures r.welcomed ==> r.state.loggedIn && r.state.enrollmentNumber == Some(id)
    ensures r.welcomed ==> exists k :: (0 <= k < |users| && r.state.user == Some(users[k]) &&
                                         users[k].enrollment == id &&
                                         forall i :: 0 <= i < k ==> users[i].enrollment != id)
  {
    match FindByEnrollment(users, id)
    case None => LoginOutcome(s, false)
    case Some(k) => LoginOutcome(LoginState(true, Some(users[k]), Some(users[k].enrollment)), true)
  }

  /** How a press of a Sign Up button ends. */
  datatype SignupOutcome =
    | NotPressed
    | Rejected              // the "Please fill all the fields" error
    | Saved(user: User)
    | SignupRaised(error: Exception)

  /** The records of `users/` other than the one filed under `enrollment`. */
  function Without(disk: seq<User>, enrollment: string): (r: seq<User>)
    ensures forall u :: u in r <==> u in disk && u.enrollment != enrollment
    decreases |disk|
  {
    if |disk| == 0 then []
    else
      var rest := Without(disk[1..], enrollment);
      assert forall u :: u in disk <==> u == disk[0] || u in disk[1..] by {
        assert disk == [disk[0]] + disk[1..];
      }
      if disk[0].enrollment == enrollment then rest else [disk[0]] + rest
  }

  /** The pickle file `save_user_data` opens for a record. */
  function PicklePath(enrollment: string): string {
    "users/" + enrollment + ".pkl"
  }

  /** `save_user_data`: the record is written to `users/{enrollment}.pkl`,
      replacing whatever was filed under that enrollment number; a new file
      is listed last. Only `users/` itself is created, so a '/' in the
      enrollment number names a missing subdirectory and `open` raises. */
  function SaveUser(disk: seq<User>, u: User): (r: Result<seq<User>>)
    ensures r.Raised? <==> '/' in u.enrollment
    ensures r.Raised? ==> r.error == FileNotFound(PicklePath(u.enrollment))
    ensures r.Ok? ==> u in r.value
    ensures r.Ok? ==> forall v :: v in r.value && v.enrollment == u.enrollment ==> v == u
    ensures r.Ok? ==> forall v :: v in r.value <==> v == u || (v in disk && v.enrollment != u.enrollment)
  {
    if '/' in u.enrollment then Raised(FileNotFound(PicklePath(u.enrollment)))
    else Ok(Without(disk, u.enrollment) + [u])
  }

  /** Everything a press of SmartMark.py's Sign Up button leaves behind: the
      outcome, the `users/` directory, the session's `users_data` cache, and
      the result of reloading the session's recognizer, if it was reloaded. */
  datatype SignupEffect<E> = SignupEffect(outcome: SignupOutcome, disk: seq<User>, cache: Option<seq<User>>,
                                          reload: Option<Facerec.LoadOutcome<E>>)

  /** SmartMark.py's signup. The four fields and the uploaded image must all
      be present; the image goes to `images/{enrollment}.jpg` and the record
      to `users/`. If writing the record raises, nothing after it runs. A
      cached user list gets the record appended; without one,
      `fetch_all_users` fills the cache from `users/`. The recognizer in
      `sfr`, if any, then reloads `images/`, whose files after the save are
      `images`; a reload that meets an unreadable image raises after the
      user is already saved. */
  function SmartMarkSignup<E>(pressed: bool, f: SignupForm, hasImage: bool, disk: seq<User>,
                              cache: Option<seq<User>>, sfr: Option<Facerec.Gallery<E>>,
                              images: seq<Facerec.ImageFile<E>>): (r: SignupEffect<E>)
    ensures !pressed ==> r == SignupEffect(NotPressed, disk, cache, None)
    ensures pressed ==> (r.outcome.Saved? <==> AllFilled(f) && hasImage && '/' !in f.enrollment)
    ensures pressed && !(AllFilled(f) && hasImage) ==> r == SignupEffect(Rejected, disk, cache, None)
    ensures pressed && AllFilled(f) && hasImage && '/' in f.enrollment ==>
      r == SignupEffect(SignupRaised(FileNotFound(PicklePath(f.enrollment))), disk, cache, None)
    ensures r.outcome.Saved? ==>
      && r.outcome.user == RecordFor(f)
      && RecordFor(f) in r.disk
      && (forall u :: u in r.disk <==> u == RecordFor(f) || (u in disk && u.enrollment != f.enrollment))
    ensures r.outcome.Saved? && cache.Some? ==> r.cache == Some(cache.value + [RecordFor(f)])
    ensures r.outcome.Saved? && cache.None? ==> r.cache == Some(r.disk)
    ensures r.outcome.Saved? ==> (r.reload.Some? <==> sfr.Some?)
    ensures r.outcome.Saved? && sfr.Some? ==> r.reload == Some(Facerec.Load(sfr.value, images))
  {
    if !pressed then SignupEffect(NotPressed, disk, cache, None)
    else if AllFilled(f) && hasImage then
      var u := RecordFor(f);
      match SaveUser(disk, u)
      case Raised(e) => SignupEffect(SignupRaised(e), disk, cache, None)
      case Ok(disk') =>
        var cache' := match cache case Some(us) => Some(us + [u]) case None => Some(disk');
        var reload := match sfr case Some(g) => Some(Facerec.Load(g, images)) case None => None;
        SignupEffect(Saved(u), disk', cache', reload)
    else SignupEffect(Rejected, disk, cache, None)
  }

  /** Right after a SmartMark signup whose record could be written, whether
      or not a user list was cached, logging in with the new enrollment
      number succeeds. */
  lemma SignupThenLogin<E>(f: SignupForm, disk: seq<User>, cache: Option<seq<User>>,
                           sfr: Option<Facerec.Gallery<E>>, images: seq<Facerec.ImageFile<E>>, s: LoginState)
    requires AllFilled(f) && '/' !in f.enrollment
    ensures SmartMarkSignup(true, f, true, disk, cache, sfr, images).cache.Some?
    ensures Login(s, SmartMarkSignup(true, f, true, disk, cache, sfr, images).cache.value, f.enrollment).welcomed
  {
    var users := SmartMarkSignup(true, f, true, disk, cache, sfr, images).cache.value;
    if cache.Some? {
      assert users[|cache.value|] == RecordFor(f);
    } else {
      var k :| 0 <= k < |users| && users[k] == RecordFor(f);
    }
  }

  /** Where attendance.py's signup takes the reference image from. */
  datatype ImageSource = Upload | Webcam

  /** attendance.py's signup. The button test reads `user_image`, which is
      only assigned in upload mode, and then `capture_button`, which is only
      assigned in webcam mode, so in webcam mode, and in upload mode without
      a file, pressing Sign Up raises a NameError. Writing the record raises
      as in `SaveUser` when the enrollment number holds a '/'. */
  function AttendanceSignup(pressed: bool, source: ImageSource, uploaded: bool, f: SignupForm): (r: SignupOutcome)
    ensures !pressed <==> r.NotPressed?
    ensures r.SignupRaised? <==>
      pressed && (source.Webcam? || !uploaded || (AllFilled(f) && '/' in f.enrollment))
    ensures r.Saved? <==> pressed && source.Upload? && uploaded && AllFilled(f) && '/' !in f.enrollment
    ensures r.Saved? ==> r.user == RecordFor(f)
    ensures r.SignupRaised? ==> (r.error.NameUndefined? <==> source.Webcam? || !uploaded)
    ensures r.SignupRaised? && !r.error.NameUndefined? ==> r.error == FileNotFound(PicklePath(f.enrollment))
  {
    if !pressed then NotPressed
    else if source.Webcam? then SignupRaised(NameUndefined("user_image"))
    else if !uploaded then SignupRaised(NameUndefined("capture_button"))
    else if AllFilled(f) then
      match SaveUser([], RecordFor(f))
      case Raised(e) => SignupRaised(e)
      case Ok(_) => Saved(RecordFor(f))
    else Rejected
  }

  /** With an uploaded file, attendance.py's signup ends exactly as
      SmartMark.py's does: the same checks, the same record, the same error
      when the record cannot be written. */
  lemma UploadSignupsAgree<E>(pressed: bool, f: SignupForm, disk: seq<User>, cache: Option<seq<User>>,
                              sfr: Option<Facerec.Gallery<E>>, images: seq<Facerec.ImageFile<E>>)
    ensures AttendanceSignup(pressed, Upload, true, f) == SmartMarkSignup(pressed, f, true, disk, cache, sfr, images).outcome
  {
  }

  /** The image a signup saves is listed by the `*.*` glob exactly when the
      enrollment number does not start with a dot; its stem is the
      enrollment number unless the number is made only of dots. */
  lemma SavedImageNamedByEnrollment(f: SignupForm)
    requires '/' !in f.enrollment && AllFilled(f)
    ensures Paths.GlobMatches(Paths.Basename(RecordFor(f).imagePath)) <==> f.enrollment[0] != '.'
    ensures !Paths.AllDots(f.enrollment) ==> Paths.Stem(RecordFor(f).imagePath) == f.enrollment
  {
    Paths.ImagePathListed(f.enrollment);
    if !Paths.AllDots(f.enrollment) {
      Paths.ImagePathStem(f.enrollment);
    }
  }

  /** A saved image with a face, once listed, gives the gallery one entry:
      its first encoding under the enrollment number. */
  lemma SavedImageLoads<E>(f: SignupForm, faces: seq<E>)
    requires '/' !in f.enrollment && AllFilled(f) && f.enrollment[0] != '.'
    requires faces != []
    ensures Paths.GlobMatches(Paths.Basename(RecordFor(f).imagePath))
    ensures Facerec.Kept([Facerec.ImageFile(RecordFor(f).imagePath, Facerec.Decoded(faces))]) ==
      [Facerec.Entry(faces[0], f.enrollment)]
  {
    SavedImageNamedByEnrollment(f);
    assert f.enrollment[0] in f.enrollment;
    Facerec.KeptOne(Facerec.ImageFile(RecordFor(f).imagePath, Facerec.Decoded(faces)));
  }
}

=== FILE: backend.dfy ===
/** The mock `/mark-attendance` endpoint of backend.py: it checks the two
    fields of the JSON body and appends one record to the in-memory
    `attendance_records` list. The clock reading is a parameter. */
module Backend {
  import opened Py

  /** One entry of `attendance_records`. */
  datatype Record = Record(studentId: Value, subject: Value, timestamp: string)

  /** An HTTP reply: status code and JSON body. */
  datatype Response = Response(status: int, body: Value)

  const MissingFields: string := "Missing student_id or subject"
  const MarkedMessage: string := "Attendance marked successfully!"

  /** A record as `jsonify` renders it. */
  function RecordJson(r: Record): Value {
    Object(map["student_id" := r.studentId, "subject" := r.subject, "timestamp" := Str(r.timestamp)])
  }

  /** The records list as `jsonify` renders it. */
  function RecordsJson(rs: seq<Record>): (v: Value)
    ensures v.List? && |v.items| == |rs|
    ensures forall i :: 0 <= i < |rs| ==> v.items[i] == RecordJson(rs[i])
  {
    List(seq(|rs|, i requires 0 <= i < |rs| => RecordJson(rs[i])))
  }

  /** Both fields are present and truthy, as `not student_id or not subject`
      rejects otherwise. */
  predicate ValidRequest(data: map<string, Value>) {
    Truthy(Get(data, "student_id")) && Truthy(Get(data, "subject"))
  }

  /** `mark_attendance` for request body `data`, given the records stored so
      far and the formatted time `now`. */
  function MarkAttendance(records: seq<Record>, data: map<string, Value>, now: string)
    : (r: (seq<Record>, Response))
    ensures !ValidRequest(data) ==>
      r.0 == records && r.1 == Response(400, Object(map["error" := Str(MissingFields)]))
    ensures ValidRequest(data) ==>
      && |r.0| == |records| + 1 && r.0[..|records|] == records
      && r.0[|records|] == Record(Get(data, "student_id"), Get(data, "subject"), now)
    ensures ValidRequest(data) ==>
      && r.1.status == 200 && r.1.body.Object?
      && "message" in r.1.body.fields && Truthy(r.1.body.fields["message"])
      && "attendance_records" in r.1.body.fields
      && r.1.body.fields["attendance_records"] == RecordsJson(r.0)
  {
    var studentId := Get(data, "student_id");
    var subject := Get(data, "subject");
    if !Truthy(studentId) || !Truthy(subject) then
      (records, Response(400, Object(map["error" := Str(MissingFields)])))
    else
      var records' := records + [Record(studentId, subject, now)];
      (records', Response(200, Object(map["message" := Str(MarkedMessage),
                                          "attendance_records" := RecordsJson(records')])))
  }

  /** The endpoint does not deduplicate: the same valid request sent twice
      stores two records with the same student and subject. */
  lemma RepeatedRequestAppendsTwice(records: seq<Record>, data: map<string, Value>, t1: string, t2: string)
    requires ValidRequest(data)
    ensures |MarkAttendance(MarkAttendance(records, data, t1).0, data, t2).0| == |records| + 2
    ensures MarkAttendance(MarkAttendance(records, data, t1).0, data, t2).0[|records|].studentId ==
            MarkAttendance(MarkAttendance(records, data, t1).0, data, t2).0[|records| + 1].studentId
    ensures MarkAttendance(MarkAttendance(records, data, t1).0, data, t2).0[|records|].subject ==
            MarkAttendance(MarkAttendance(records, data, t1).0, data, t2).0[|records| + 1].subject
  {
    var once := MarkAttendance(records, data, t1).0;
    var twice := MarkAttendance(once, data, t2).0;
    assert twice[..|once|] == once;
    assert twice[|records|] == once[|records|];
  }
}

=== FILE: facerec.dfy ===
/** `SimpleFacerec`: the gallery of known faces held as two parallel lists,
    the per-face match decision (first minimum distance, guarded by the
    library's per-entry match flag) and the rescaling of boxes found on the
    quarter-size frame. Face encodings are an abstract type `E`; the
    library's entrywise distance and match test are parameters. */
module Facerec {
  import opened Py
  import Paths

  /** The name reported for a face that is not accepted as a gallery entry. */
  const Unknown: string := "Unknown"

  /** Scale factor applied to a frame before detection. */
  const FrameResizing: real := 0.25

  /** One file listed from the reference directory: either `cv2.imread`
      could not decode it, or it decoded and `face_encodings` found these
      faces in it, in detection order. */
  datatype Image<E> = Unreadable | Decoded(encodings: seq<E>)

  datatype ImageFile<E> = ImageFile(path: string, image: Image<E>)

  /** `known_face_encodings` and `known_face_names`, kept as two lists. */
  datatype Gallery<E> = Gallery(encodings: seq<E>, names: seq<string>)

  /** One gallery entry as contributed by one reference image. */
  datatype Entry<E> = Entry(encoding: E, name: string)

  /** Result of `load_encoding_images`. The lists are extended in place, so
      when decoding a file raises, the entries added before it remain. */
  datatype LoadOutcome<E> =
    | Loaded(gallery: Gallery<E>)
    | Crashed(gallery: Gallery<E>, path: string)

  /** A face box in face_recognition's (top, right, bottom, left) order. */
  datatype Box = Box(top: int, right: int, bottom: int, left: int)

  /** What `detect_known_faces` returns: boxes in original-frame coordinates
      and one name per detected face. */
  datatype Detection = Detection(boxes: seq<Box>, names: seq<string>)

  /** The two lists have one element per entry. */
  predicate Parallel<E>(g: Gallery<E>) {
    |g.encodings| == |g.names|
  }

  /** The state `__init__` leaves. */
  function EmptyGallery<E>(): (g: Gallery<E>)
    ensures Parallel(g) && g.names == []
  {
    Gallery([], [])
  }

  /** The encodings of a run of entries, in order. */
  function EncodingsOf<E>(es: seq<Entry<E>>): (r: seq<E>)
    ensures |r| == |es|
    ensures forall i :: 0 <= i < |es| ==> r[i] == es[i].encoding
  {
    if |es| == 0 then [] else [es[0].encoding] + EncodingsOf(es[1..])
  }

  /** The names of a run of entries, in order. */
  function NamesOf<E>(es: seq<Entry<E>>): (r: seq<string>)
    ensures |r| == |es|
    ensures forall i :: 0 <= i < |es| ==> r[i] == es[i].name
  {
    if |es| == 0 then [] else [es[0].name] + NamesOf(es[1..])
  }

  /** The gallery with `entries` appended to both lists, in order. */
  function Extend<E>(g: Gallery<E>, entries: seq<Entry<E>>): Gallery<E> {
    Gallery(g.encodings + EncodingsOf(entries), g.names + NamesOf(entries))
  }

  /** Reference definition of what a run of decodable files contributes: one
      entry per file with at least one face, holding that file's first
      encoding and its path's stem, in listing order. */
  function Kept<E>(files: seq<ImageFile<E>>): (r: seq<Entry<E>>)
    ensures |r| <= |files|
  {
    if |files| == 0 then []
    else
      var here :=
        match files[0].image
        case Decoded(faces) => if |faces| > 0 then [Entry(faces[0], Paths.Stem(files[0].path))] else []
        case Unreadable => [];
      here + Kept(files[1..])
  }

  /** Index of the first file `cv2.imread` cannot decode, or `|files|`. */
  function FirstUnreadable<E>(files: seq<ImageFile<E>>): (k: nat)
    ensures k <= |files|
    ensures forall i :: 0 <= i < k ==> files[i].image.Decoded?
    ensures k < |files| ==> files[k].image.Unreadable?
  {
    if |files| == 0 then 0
    else if files[0].image.Unreadable? then 0
    else 1 + FirstUnreadable(files[1..])
  }

  /** One iteration of the loading loop for a decoded image. */
  function LoadStep<E>(g: Gallery<E>, path: string, faces: seq<E>): (r: Gallery<E>)
    ensures Parallel(g) ==> Parallel(r)
    ensures faces == [] ==> r == g
    ensures faces != [] ==>
      r.encodings == g.encodings + [faces[0]] && r.names == g.names + [Paths.Stem(path)]
  {
    if |faces| > 0 then Gallery(g.encodings + [faces[0]], g.names + [Paths.Stem(path)])
    else g
  }

  /** `load_encoding_images` over the files the directory glob listed. */
  function Load<E>(g: Gallery<E>, files: seq<ImageFile<E>>): (r: LoadOutcome<E>)
    ensures Parallel(g) ==> Parallel(r.gallery)
    ensures r.Loaded? <==> FirstUnreadable(files) == |files|
    ensures r.Crashed? ==> r.path == files[FirstUnreadable(files)].path
    decreases |files|
  {
    if |files| == 0 then Loaded(g)
    else
      match files[0].image
      case Unreadable => Crashed(g, files[0].path)
      case Decoded(faces) => Load(LoadStep(g, files[0].path, faces), files[1..])
  }

  /** Loading appends, in listing order, one entry per decodable file with a
      face up to the first file that cannot be decoded: earlier entries are
      kept as they were. */
  lemma {:induction false} LoadContents<E>(g: Gallery<E>, files: seq<ImageFile<E>>)
    ensures Load(g, files).gallery == Extend(g, Kept(files[..FirstUnreadable(files)]))
    decreases |files|
  {
    if |files| == 0 {
      assert files[..0] == [];
    } else {
      match files[0].image
      case Unreadable =>
        assert files[..0] == [];
      case Decoded(faces) =>
        var tail := files[1..];
        var pre := tail[..FirstUnreadable(tail)];
        LoadContents(LoadStep(g, files[0].path, faces), tail);
        StepIsExtend(g, files[0]);
        PrefixCons(files);
        KeptCons(files[0], pre);
        ExtendTwice(g, Kept([files[0]]), Kept(pre));
    }
  }

  /** A recognizer created by `__init__` and loaded once, as the apps set it
      up, holds exactly the entries `Kept` gives for the files before the
      first unreadable one, in listing order. */
  lemma InitialLoad<E>(files: seq<ImageFile<E>>)
    ensures Load(EmptyGallery(), files).gallery.encodings == EncodingsOf(Kept(files[..FirstUnreadable(files)]))
    ensures Load(EmptyGallery(), files).gallery.names == NamesOf(Kept(files[..FirstUnreadable(files)]))
  {
    LoadContents(EmptyGallery(), files);
  }

  /** One loop iteration appends what `Kept` says the file contributes. */
  lemma StepIsExtend<E>(g: Gallery<E>, f: ImageFile<E>)
    requires f.image.Decoded?
    ensures LoadStep(g, f.path, f.image.encodings) == Extend(g, Kept([f]))
  {
    KeptOne(f);
  }

  /** The decodable prefix of a list that starts with a decodable file. */
  lemma PrefixCons<E>(files: seq<ImageFile<E>>)
    requires |files| > 0 && files[0].image.Decoded?
    ensures files[..FirstUnreadable(files)] == [files[0]] + files[1..][..FirstUnreadable(files[1..])]
  {
  }

  /** `Kept` of a list is `Kept` of its head followed by `Kept` of its tail. */
  lemma KeptCons<E>(f: ImageFile<E>, rest: seq<ImageFile<E>>)
    ensures Kept([f] + rest) == Kept([f]) + Kept(rest)
  {
    assert ([f] + rest)[1..] == rest;
    assert [f][1..] == [];
  }

  /** Appending two runs of entries one after the other is appending their
      concatenation. */
  lemma ExtendTwice<E>(g: Gallery<E>, a: seq<Entry<E>>, b: seq<Entry<E>>)
    ensures Extend(Extend(g, a), b) == Extend(g, a + b)
  {
    OfAppend(a, b);
    AppendAssoc(g.encodings, EncodingsOf(a), EncodingsOf(b));
    AppendAssoc(g.names, NamesOf(a), NamesOf(b));
  }

  /** Projecting entries distributes over concatenation. */
  lemma {:induction false} OfAppend<E>(a: seq<Entry<E>>, b: seq<Entry<E>>)
    ensures EncodingsOf(a + b) == EncodingsOf(a) + EncodingsOf(b)
    ensures NamesOf(a + b) == NamesOf(a) + NamesOf(b)
  {
    if |a| > 0 {
      assert (a + b)[1..] == a[1..] + b;
      OfAppend(a[1..], b);
    } else {
      assert a + b == b;
    }
  }

  /** Each entry the loader keeps comes from a listed file that decoded with
      at least one face: its first encoding, under the file's stem. */
  lemma {:induction false} KeptFromFaces<E>(files: seq<ImageFile<E>>, k: nat)
    requires k < |Kept(files)|
    ensures exists i :: (0 <= i < |files| && files[i].image.Decoded? && files[i].image.encodings != [] &&
                         Kept(files)[k] == Entry(files[i].image.encodings[0], Paths.Stem(files[i].path)))
  {
    var here := Kept([files[0]]);
    assert files == [files[0]] + files[1..];
    KeptCons(files[0], files[1..]);
    if k < |here| {
      KeptOne(files[0]);
      assert Kept(files)[k] == here[k];
    } else {
      KeptFromFaces(files[1..], k - |here|);
      var i :| 0 <= i < |files[1..]| && files[1..][i].image.Decoded? && files[1..][i].image.encodings != [] &&
        Kept(files[1..])[k - |here|] == Entry(files[1..][i].image.encodings[0], Paths.Stem(files[1..][i].path));
      assert files[i + 1] == files[1..][i];
    }
  }

  /** A decoded file with no face contributes nothing, and one with faces
      contributes exactly one entry: its first encoding. */
  lemma KeptOne<E>(f: ImageFile<E>)
    requires f.image.Decoded?
    ensures f.image.encodings == [] ==> Kept([f]) == []
    ensures f.image.encodings != [] ==> Kept([f]) == [Entry(f.image.encodings[0], Paths.Stem(f.path))]
  {
    assert [f][1..] == [];
  }

  /** Reloading the same, fully decodable directory into a loaded gallery
      appends every kept entry a second time instead of replacing it. */
  lemma ReloadDuplicates<E>(g: Gallery<E>, files: seq<ImageFile<E>>)
    requires FirstUnreadable(files) == |files|
    ensures Load(Load(g, files).gallery, files) ==
      Loaded(Extend(g, Kept(files) + Kept(files)))
  {
    assert files[..|files|] == files;
    LoadContents(g, files);
    LoadContents(Load(g, files).gallery, files);
    ExtendTwice(g, Kept(files), Kept(files));
  }

  /** When the directory listing comes from the `*.*` glob, every name the
      loader stores is non-empty. */
  lemma GlobbedNamesNonEmpty<E>(g: Gallery<E>, files: seq<ImageFile<E>>)
    requires forall n :: n in g.names ==> n != ""
    requires forall i :: 0 <= i < |files| ==> Paths.GlobMatches(Paths.Basename(files[i].path))
    ensures forall n :: n in Load(g, files).gallery.names ==> n != ""
  {
    var pre := files[..FirstUnreadable(files)];
    LoadContents(g, files);
    KeptNamesNonEmpty(pre);
    assert Load(g, files).gallery.names == g.names + NamesOf(Kept(pre));
  }

  /** Names kept from glob-listed files are non-empty. */
  lemma {:induction false} KeptNamesNonEmpty<E>(files: seq<ImageFile<E>>)
    requires forall i :: 0 <= i < |files| ==> Paths.GlobMatches(Paths.Basename(files[i].path))
    ensures forall n :: n in NamesOf(Kept(files)) ==> n != ""
    decreases |files|
  {
    if |files| > 0 {
      var f := files[0];
      assert files == [f] + files[1..];
      KeptCons(f, files[1..]);
      OfAppend(Kept([f]), Kept(files[1..]));
      KeptNamesNonEmpty(files[1..]);
      if f.image.Decoded? {
        KeptOne(f);
        if f.image.encodings != [] {
          Paths.GlobStemNonEmpty(f.path);
        }
      } else {
        assert [f][1..] == [];
      }
    }
  }

  /** `f` applied between every gallery encoding and the face, in gallery
      order: `face_distance` with `f` the distance, `compare_faces` with `f`
      the library's match test. */
  function PerEntry<E, R>(known: seq<E>, face: E, f: (E, E) -> R): (rs: seq<R>)
    ensures |rs| == |known|
    ensures forall i :: 0 <= i < |known| ==> rs[i] == f(known[i], face)
  {
    seq(|known|, i requires 0 <= i < |known| => f(known[i], face))
  }

  /** `k` is what `np.argmin` returns: an index of the least value, and no
      earlier index holds that value. */
  predicate IsFirstArgMin(ds: seq<real>, k: int) {
    && 0 <= k < |ds|
    && (forall j :: 0 <= j < |ds| ==> ds[k] <= ds[j])
    && (forall j :: 0 <= j < k ==> ds[k] < ds[j])
  }

  /** `np.argmin` over a non-empty array, scanning left to right and
      replacing the candidate only on a strictly smaller value. */
  function FirstArgMin(ds: seq<real>): (k: nat)
    requires |ds| > 0
    ensures IsFirstArgMin(ds, k)
  {
    if |ds| == 1 then 0
    else
      var k' := FirstArgMin(ds[..|ds| - 1]);
      if ds[|ds| - 1] < ds[k'] then |ds| - 1 else k'
  }

  /** At most one index is the first minimum, so `FirstArgMin` is the only
      answer `np.argmin` can give. */
  lemma FirstArgMinUnique(ds: seq<real>, k: int)
    requires IsFirstArgMin(ds, k)
    ensures k == FirstArgMin(ds)
  {
  }

  /** `name` is what the loop body gives a face: the gallery name at the
      first minimum distance if the match flag there is set, else Unknown. */
  ghost predicate DecidedBy<E>(g: Gallery<E>, face: E, name: string, dist: (E, E) -> real, close: (E, E) -> bool)
    requires Parallel(g)
  {
    forall k :: IsFirstArgMin(PerEntry(g.encodings, face, dist), k) ==>
      name == (if PerEntry(g.encodings, face, close)[k] then g.names[k] else Unknown)
  }

  /** The match decision for one detected face against a non-empty gallery. */
  function Decide<E>(g: Gallery<E>, face: E, dist: (E, E) -> real, close: (E, E) -> bool): (name: string)
    requires Parallel(g) && |g.encodings| > 0
    ensures DecidedBy(g, face, name, dist, close)
    ensures name == Unknown || name in g.names
  {
    var ds := PerEntry(g.encodings, face, dist);
    var k := FirstArgMin(ds);
    forall k' | IsFirstArgMin(ds, k')
      ensures k' == k
    {
      FirstArgMinUnique(ds, k');
    }
    if PerEntry(g.encodings, face, close)[k] then g.names[k] else Unknown
  }

  /** With the library's default rule, a flag set exactly when the distance
      is within the tolerance, a face gets the name at its first minimum
      when some entry is within the tolerance and Unknown when none is. */
  lemma ThresholdDecision<E>(g: Gallery<E>, face: E, dist: (E, E) -> real, close: (E, E) -> bool, tol: real)
    requires Parallel(g) && |g.encodings| > 0
    requires forall i :: 0 <= i < |g.encodings| ==> close(g.encodings[i], face) == (dist(g.encodings[i], face) <= tol)
    ensures (exists i :: 0 <= i < |g.encodings| && dist(g.encodings[i], face) <= tol) ==>
      exists k :: IsFirstArgMin(PerEntry(g.encodings, face, dist), k) && Decide(g, face, dist, close) == g.names[k]
    ensures (forall i :: 0 <= i < |g.encodings| ==> dist(g.encodings[i], face) > tol) ==>
      Decide(g, face, dist, close) == Unknown
  {
    var ds := PerEntry(g.encodings, face, dist);
    var k := FirstArgMin(ds);
    if i :| 0 <= i < |g.encodings| && dist(g.encodings[i], face) <= tol {
      assert ds[k] <= ds[i];
      assert close(g.encodings[k], face);
    }
  }

  /** A face identical to a stored encoding, with non-negative distances
      that are zero on equal encodings and a flag set at zero distance, is
      named after the first entry at distance zero, which is that entry
      unless an earlier entry is also at distance zero. */
  lemma SelfMatch<E>(g: Gallery<E>, i: nat, dist: (E, E) -> real, close: (E, E) -> bool)
    requires Parallel(g) && i < |g.encodings|
    requires dist(g.encodings[i], g.encodings[i]) == 0.0
    requires forall j :: 0 <= j < |g.encodings| ==> dist(g.encodings[j], g.encodings[i]) >= 0.0
    requires forall j :: 0 <= j < |g.encodings| && dist(g.encodings[j], g.encodings[i]) == 0.0 ==> close(g.encodings[j], g.encodings[i])
    ensures exists j :: (0 <= j <= i && dist(g.encodings[j], g.encodings[i]) == 0.0 &&
                         Decide(g, g.encodings[i], dist, close) == g.names[j])
    ensures (forall j :: 0 <= j < i ==> dist(g.encodings[j], g.encodings[i]) > 0.0) ==>
      Decide(g, g.encodings[i], dist, close) == g.names[i]
  {
    var face := g.encodings[i];
    var ds := PerEntry(g.encodings, face, dist);
    var k := FirstArgMin(ds);
    assert ds[k] <= ds[i];
    assert ds[k] == 0.0;
  }

  /** Box coordinates found on the quarter-size frame, divided by the
      resize factor and cast back with numpy's `astype(int)`, which
      truncates toward zero. */
  function Trunc(x: real): (n: int)
    ensures x >= 0.0 ==> n as real <= x < n as real + 1.0
    ensures x < 0.0 ==> n as real - 1.0 < x <= n as real
  {
    if x >= 0.0 then x.Floor else -((-x).Floor)
  }

  /** One coordinate mapped back to the original frame: four times itself. */
  function Upscale(c: int): (r: int)
    ensures r == 4 * c
  {
    Trunc(c as real / FrameResizing)
  }

  function UpscaleBox(b: Box): (r: Box)
    ensures r == Box(4 * b.top, 4 * b.right, 4 * b.bottom, 4 * b.left)
  {
    Box(Upscale(b.top), Upscale(b.right), Upscale(b.bottom), Upscale(b.left))
  }

  /** `detect_known_faces`, given what the detector found on the small
      frame: `locations` from `face_locations` and `faces` from
      `face_encodings`. A face against an empty gallery makes `np.argmin`
      raise. */
  function Detect<E>(g: Gallery<E>, locations: seq<Box>, faces: seq<E>,
                     dist: (E, E) -> real, close: (E, E) -> bool): (r: Result<Detection>)
    requires Parallel(g)
    ensures r.Raised? <==> |g.encodings| == 0 && |faces| > 0
    ensures r.Raised? ==> r.error == ArgMinOfEmpty
    ensures r.Ok? ==> |r.value.names| == |faces| && |r.value.boxes| == |locations|
    ensures r.Ok? ==> forall i :: 0 <= i < |faces| ==>
      DecidedBy(g, faces[i], r.value.names[i], dist, close) &&
      (r.value.names[i] == Unknown || r.value.names[i] in g.names)
    ensures r.Ok? ==> forall i :: 0 <= i < |locations| ==>
      r.value.boxes[i] == Box(4 * locations[i].top, 4 * locations[i].right,
                              4 * locations[i].bottom, 4 * locations[i].left)
  {
    if |faces| > 0 && |g.encodings| == 0 then Raised(ArgMinOfEmpty)
    else
      var names := seq(|faces|, i requires 0 <= i < |faces| => Decide(g, faces[i], dist, close));
      var boxes := seq(|locations|, i requires 0 <= i < |locations| => UpscaleBox(locations[i]));
      Ok(Detection(boxes, names))
  }

  /** The names the callers' `zip(face_locations, face_names)` loops visit:
      `zip` stops at the shorter of the two lists. */
  function PairedNames(d: Detection): (names: seq<string>)
    ensures |names| <= |d.names|
    ensures forall i :: 0 <= i < |names| ==> names[i] == d.names[i]
  {
    ZipSeconds(d.boxes, d.names)
  }

  /** When the detector reports one encoding per location, as
      `face_encodings(frame, face_locations)` does, the callers' `zip` loops
      visit every name `Detect` returns. */
  lemma DetectPairsEveryName<E>(g: Gallery<E>, locations: seq<Box>, faces: seq<E>,
                                dist: (E, E) -> real, close: (E, E) -> bool)
    requires Parallel(g) && |locations| == |faces|
    requires Detect(g, locations, faces, dist, close).Ok?
    ensures PairedNames(Detect(g, locations, faces, dist, close).value) ==
      Detect(g, locations, faces, dist, close).value.names
  {
  }
}

=== FILE: main_page.dfy ===
/** The facial-recognition page of main.py: after checking the session for
    a student id and a subject it reads frames until one yields a
    recognized name, then calls the attendance API once with the session's
    student id and subject and reports the reply. */
module MainPage {
  import opened Py
  import opened Facerec
  import Backend

  /** What `st.session_state` holds under "student_id" and "subject". */
  datatype PageSession = PageSession(studentId: Option<Value>, subject: Option<Value>)

  /** The JSON body `mark_attendance_api` posts. */
  function Payload(studentId: Value, subject: Value): (p: map<string, Value>)
    ensures Get(p, "student_id") == studentId && Get(p, "subject") == subject
  {
    map["student_id" := studentId, "subject" := subject]
  }

  /** `recognized_name` has a value that `if recognized_name:` accepts. */
  predicate IsSet(name: Option<string>) {
    name.Some? && name.value != ""
  }

  /** The loop over `zip(face_locations, face_names)` for one frame: every
      name other than "Unknown" overwrites `recognized_name`, so the last
      such name wins; a frame with none leaves it as it was. */
  function SelectName(current: Option<string>, names: seq<string>): (r: Option<string>)
    ensures (forall i :: 0 <= i < |names| ==> names[i] == Unknown) ==> r == current
    ensures (exists i :: 0 <= i < |names| && names[i] != Unknown) ==>
      exists i :: (0 <= i < |names| && names[i] != Unknown && r == Some(names[i]) &&
                   forall j :: i < j < |names| ==> names[j] == Unknown)
    decreases |names|
  {
    if |names| == 0 then current
    else
      var next := if names[0] != Unknown then Some(names[0]) else current;
      var r := SelectName(next, names[1..]);
      assert forall j :: 0 < j < |names| ==> names[j] == names[1..][j - 1];
      r
  }

  /** How the frame loop ends. */
  datatype ScanResult = Found(name: string) | Exhausted | ScanRaised(error: Exception)

  /** The `while cap.isOpened()` loop over the detector's results for the
      frames the webcam delivers before a read fails. `recognized_name`
      carries over from frame to frame. */
  function Scan(current: Option<string>, frames: seq<Result<Detection>>): (r: ScanResult)
    ensures r.Found? ==>
      && r.name != ""
      && (current == Some(r.name) || (r.name != Unknown && SeenIn(frames, r.name)))
    decreases |frames|
  {
    if |frames| == 0 then Exhausted
    else
      match frames[0]
      case Raised(e) => ScanRaised(e)
      case Ok(d) =>
        var names := PairedNames(d);
        var next := SelectName(current, names);
        if IsSet(next) then
          assert next != current ==> next.value != Unknown && SeenIn(frames, next.value) by {
            if next != current {
              var i :| 0 <= i < |names| && names[i] != Unknown && next == Some(names[i]);
              assert PairedNames(frames[0].value)[i] == next.value;
            }
          }
          Found(next.value)
        else
          var r := Scan(next, frames[1..]);
          assert r.Found? ==> SeenIn(frames, r.name) by {
            if r.Found? {
              var k, i :| 0 <= k < |frames[1..]| && frames[1..][k].Ok? && 0 <= i < |PairedNames(frames[1..][k].value)| &&
                PairedNames(frames[1..][k].value)[i] == r.name;
              assert frames[k + 1] == frames[1..][k];
            }
          }
          r
  }

  /** Some frame that did not raise pairs `name` with a box. */
  ghost predicate SeenIn(frames: seq<Result<Detection>>, name: string) {
    exists k, i :: 0 <= k < |frames| && frames[k].Ok? && 0 <= i < |PairedNames(frames[k].value)| &&
      PairedNames(frames[k].value)[i] == name
  }

  /** How a run of the page ends. */
  datatype PageOutcome =
    | MissingData                         // error shown, camera never opened
    | NoFaceRecognized(webcamFailed: bool)
    | PageRaised(error: Exception)
    | AttendanceCalled(name: string, payload: map<string, Value>, reported: Result<bool>)

  /** `facial_recognition_page`. `cameraOpen` is `cap.isOpened()` on entry;
      `response` is the JSON body the API call returns, and `reported` says
      whether success (a truthy "message") or failure was shown. */
  function RecognitionPage(s: PageSession, cameraOpen: bool, frames: seq<Result<Detection>>, response: Value)
    : (r: PageOutcome)
    ensures s.studentId.None? || s.subject.None? <==> r.MissingData?
    ensures r.AttendanceCalled? <==> !r.MissingData? && cameraOpen && Scan(None, frames).Found?
    ensures r.AttendanceCalled? ==>
      && r.payload == Payload(s.studentId.value, s.subject.value)
      && r.name != Unknown && r.name != ""
      && SeenIn(frames, r.name)
    ensures r.AttendanceCalled? ==>
      (r.reported == Ok(true) <==> response.Object? && Truthy(Get(response.fields, "message")))
    ensures r.AttendanceCalled? && response.Object? ==>
      r.reported == Ok(Truthy(Get(response.fields, "message")))
    ensures r.AttendanceCalled? && !response.Object? ==> r.reported == Raised(NotADict)
    ensures !r.MissingData? && cameraOpen ==>
      && (Scan(None, frames).Exhausted? <==> r == NoFaceRecognized(true))
      && (Scan(None, frames).ScanRaised? <==> r.PageRaised?)
      && (r.PageRaised? ==> r.error == Scan(None, frames).error)
      && (r.AttendanceCalled? ==> r.name == Scan(None, frames).name)
    ensures !cameraOpen && !r.MissingData? ==> r == NoFaceRecognized(false)
  {
    if s.studentId.None? || s.subject.None? then MissingData
    else if !cameraOpen then NoFaceRecognized(false)
    else
      match Scan(None, frames)
      case Exhausted => NoFaceRecognized(true)
      case ScanRaised(e) => PageRaised(e)
      case Found(name) =>
        var payload := Payload(s.studentId.value, s.subject.value);
        match response
        case Object(fields) => AttendanceCalled(name, payload, Ok(Truthy(Get(fields, "message"))))
        case _ => AttendanceCalled(name, payload, Raised(NotADict))
  }

  /** Which face was recognized does not reach the API: two runs that both
      call it send the same payload, the session's. */
  lemma PayloadIgnoresName(s: PageSession, cameraOpen: bool, f1: seq<Result<Detection>>, f2: seq<Result<Detection>>,
                           resp1: Value, resp2: Value)
    requires RecognitionPage(s, cameraOpen, f1, resp1).AttendanceCalled?
    requires RecognitionPage(s, cameraOpen, f2, resp2).AttendanceCalled?
    ensures RecognitionPage(s, cameraOpen, f1, resp1).payload == RecognitionPage(s, cameraOpen, f2, resp2).payload
  {
  }

  /** Index of the first frame that raised or pairs a name other than
      "Unknown" with a box; `|frames|` when there is none. */
  function FirstKnownFrame(frames: seq<Result<Detection>>): (k: nat)
    ensures k <= |frames|
    ensures forall j :: 0 <= j < k ==>
      && frames[j].Ok?
      && forall i :: 0 <= i < |PairedNames(frames[j].value)| ==> PairedNames(frames[j].value)[i] == Unknown
    ensures k < |frames| ==>
      || frames[k].Raised?
      || exists i :: 0 <= i < |PairedNames(frames[k].value)| && PairedNames(frames[k].value)[i] != Unknown
  {
    if |frames| == 0 then 0
    else if frames[0].Raised? ||
      exists i :: 0 <= i < |PairedNames(frames[0].value)| && PairedNames(frames[0].value)[i] != Unknown
    then 0
    else 1 + FirstKnownFrame(frames[1..])
  }

  /** Every name the detector reports is non-empty, as it is for galleries
      loaded from the `*.*` glob. */
  predicate NamesNonEmpty(frames: seq<Result<Detection>>) {
    forall k, i :: 0 <= k < |frames| && frames[k].Ok? && 0 <= i < |PairedNames(frames[k].value)| ==>
      PairedNames(frames[k].value)[i] != ""
  }

  /** With non-empty names, the loop stops at the first frame pairing a name
      other than "Unknown" with a box, and that frame's last such name is
      the one recognized; without such a frame it reports that no face was
      recognized, or the exception detection raised first. */
  lemma {:induction false} ScanStopsAtFirstKnownFrame(frames: seq<Result<Detection>>)
    requires NamesNonEmpty(frames)
    ensures FirstKnownFrame(frames) == |frames| ==> Scan(None, frames) == Exhausted
    ensures FirstKnownFrame(frames) < |frames| && frames[FirstKnownFrame(frames)].Raised? ==>
      Scan(None, frames) == ScanRaised(frames[FirstKnownFrame(frames)].error)
    ensures FirstKnownFrame(frames) < |frames| && frames[FirstKnownFrame(frames)].Ok? ==>
      Scan(None, frames) == Found(SelectName(None, PairedNames(frames[FirstKnownFrame(frames)].value)).value)
    decreases |frames|
  {
    if |frames| > 0 && frames[0].Ok? {
      var names := PairedNames(frames[0].value);
      if exists i :: 0 <= i < |names| && names[i] != Unknown {
        var i :| 0 <= i < |names| && names[i] != Unknown && SelectName(None, names) == Some(names[i]) &&
          forall j :: i < j < |names| ==> names[j] == Unknown;
        assert names[i] != "";
      } else {
        assert SelectName(None, names) == None;
        assert NamesNonEmpty(frames[1..]) by {
          forall k, i | 0 <= k < |frames[1..]| && frames[1..][k].Ok? && 0 <= i < |PairedNames(frames[1..][k].value)|
            ensures PairedNames(frames[1..][k].value)[i] != ""
          {
            assert frames[1..][k] == frames[k + 1];
          }
        }
        ScanStopsAtFirstKnownFrame(frames[1..]);
      }
    }
  }

  /** Against the backend of backend.py, a call made by the page is
      reported as a success exactly when the session's student id and
      subject are both truthy, and only then does the backend store a
      record: exactly one, for that student and subject. */
  lemma PageAgainstBackend(s: PageSession, frames: seq<Result<Detection>>,
                           records: seq<Backend.Record>, now: string)
    requires s.studentId.Some? && s.subject.Some?
    requires Scan(None, frames).Found?
    ensures var reply := Backend.MarkAttendance(records, Payload(s.studentId.value, s.subject.value), now);
      && RecognitionPage(s, true, frames, reply.1.body).AttendanceCalled?
      && (RecognitionPage(s, true, frames, reply.1.body).reported == Ok(true) <==>
          Truthy(s.studentId.value) && Truthy(s.subject.value))
      && (Truthy(s.studentId.value) && Truthy(s.subject.value) ==>
          reply.0 == records + [Backend.Record(s.studentId.value, s.subject.value, now)])
      && (!(Truthy(s.studentId.value) && Truthy(s.subject.value)) ==> reply.0 == records)
  {
    var p := Payload(s.studentId.value, s.subject.value);
    var reply := Backend.MarkAttendance(records, p, now);
    if Truthy(s.studentId.value) && Truthy(s.subject.value) {
      assert reply.0 == reply.0[..|records|] + [reply.0[|records|]];
    } else {
      assert reply.1.body.fields == map["error" := Str(Backend.MissingFields)];
      assert "message" !in reply.1.body.fields;
    }
  }
}

=== FILE: paths.dfy ===
/** POSIX path handling used to turn a reference image's path into a gallery
    name: `os.path.basename`, `os.path.splitext`, the `*.*` glob filter and
    the `images/{enrollment}.jpg` path both signup pages write to. */
module Paths {

  /** `s.rfind(c)`: the last index holding `c`, or -1. */
  function RFind(s: string, c: char): (i: int)
    ensures -1 <= i < |s|
    ensures i >= 0 ==> s[i] == c
    ensures forall j :: i < j < |s| ==> s[j] != c
    ensures i == -1 <==> c !in s
  {
    if |s| == 0 then -1
    else if s[|s| - 1] == c then |s| - 1
    else RFind(s[..|s| - 1], c)
  }

  /** Every character is a dot (vacuously true of the empty string). */
  predicate AllDots(s: string) {
    forall k :: 0 <= k < |s| ==> s[k] == '.'
  }

  /** `os.path.basename(p)` on POSIX: everything after the last `/`. */
  function Basename(p: string): string {
    p[RFind(p, '/') + 1..]
  }

  /** The basename is the part of the path after its last slash: it holds
      no slash and is a suffix of the path, preceded by a slash unless it is
      the whole path. */
  lemma BasenameSpec(p: string)
    ensures '/' !in Basename(p)
    ensures |Basename(p)| <= |p| && Basename(p) == p[|p| - |Basename(p)|..]
    ensures |Basename(p)| < |p| ==> p[|p| - |Basename(p)| - 1] == '/'
  {
  }

  /** `os.path.splitext(p)` on POSIX: split at the last dot of the last path
      component, unless everything before that dot in the component is dots
      (so `.bashrc` and `..jpg` have no extension). */
  function SplitExt(p: string): (string, string) {
    var sep := RFind(p, '/');
    var dot := RFind(p, '.');
    if dot > sep && !AllDots(p[sep + 1..dot]) then (p[..dot], p[dot..]) else (p, [])
  }

  /** Stem and extension put back together give the path; the extension is
      empty or a dot followed by dot-free, slash-free text; and a name
      without slashes has an extension exactly when some dot in it comes
      after a character other than a dot. */
  lemma SplitExtSpec(p: string)
    ensures SplitExt(p).0 + SplitExt(p).1 == p
    ensures SplitExt(p).1 == [] ||
      (SplitExt(p).1[0] == '.' && '.' !in SplitExt(p).1[1..] && '/' !in SplitExt(p).1)
    ensures '/' !in p ==>
      (SplitExt(p).1 != [] <==> exists i, j :: 0 <= j < i < |p| && p[j] != '.' && p[i] == '.')
  {
    var sep := RFind(p, '/');
    var dot := RFind(p, '.');
    if dot > sep && !AllDots(p[sep + 1..dot]) {
      assert p[..dot] + p[dot..] == p;
    } else {
      assert '/' !in p ==> forall i, j :: 0 <= j < i < |p| && p[i] == '.' ==> p[..dot][j] == p[j];
    }
  }

  /** The name `load_encoding_images` stores for an image path: the basename
      with its extension removed. */
  function Stem(path: string): string {
    SplitExt(Basename(path)).0
  }

  /** A basename that `glob.glob(os.path.join(dir, "*.*"))` returns: it is not
      hidden (no leading dot) and it contains a dot. */
  predicate GlobMatches(name: string) {
    '/' !in name && |name| > 0 && name[0] != '.' && '.' in name
  }

  /** Path under which both signup pages store the reference image. */
  function ImagePath(enrollment: string): string {
    "images/" + enrollment + ".jpg"
  }

  /** Every file the `*.*` glob lists has a non-empty stem and a non-empty
      extension, so gallery names are never the empty string. */
  lemma GlobStemNonEmpty(path: string)
    requires GlobMatches(Basename(path))
    ensures Stem(path) != ""
    ensures SplitExt(Basename(path)).1 != ""
  {
    BasenameSpec(path);
    GlobNameSplits(Basename(path));
  }

  /** A glob-listed basename splits into a non-empty stem and extension. */
  lemma GlobNameSplits(b: string)
    requires GlobMatches(b)
    ensures SplitExt(b).0 != [] && SplitExt(b).1 != []
  {
    var i :| 0 <= i < |b| && b[i] == '.';
    assert 0 < i && b[0] != '.';
    SplitExtSpec(b);
    var r := SplitExt(b);
    assert r.1 != [];
  }

  /** The basename of `images/{e}.jpg` is `{e}.jpg` when `e` holds no slash. */
  lemma ImagePathBasename(e: string)
    requires '/' !in e
    ensures Basename(ImagePath(e)) == e + ".jpg"
  {
    var p := ImagePath(e);
    assert p[6] == '/';
    var sep := RFind(p, '/');
    assert forall k :: 7 <= k < |p| ==> p[k] == (e + ".jpg")[k - 7];
    assert sep == 6;
    assert p[7..] == e + ".jpg";
  }

  /** The `*.*` glob lists a signup image exactly when the enrollment number
      is non-empty and does not start with a dot: otherwise the file name
      `{e}.jpg` is hidden. */
  lemma ImagePathListed(e: string)
    requires '/' !in e
    ensures GlobMatches(Basename(ImagePath(e))) <==> e != "" && e[0] != '.'
  {
    ImagePathBasename(e);
    var b := e + ".jpg";
    assert b[|e|] == '.';
    assert e != "" ==> b[0] == e[0];
    assert e == "" ==> b[0] == '.';
  }

  /** The stem of a signup image's path is the enrollment number it was saved
      with, provided the number has no slash and is not made only of dots. */
  lemma ImagePathStem(e: string)
    requires '/' !in e && !AllDots(e)
    ensures Stem(ImagePath(e)) == e
  {
    ImagePathBasename(e);
    var b := e + ".jpg";
    var dot := RFind(b, '.');
    assert b[|e|] == '.';
    assert dot == |e|;
    assert RFind(b, '/') == -1;
    assert b[0..dot] == e;
  }
}

=== FILE: py.dfy ===
/** Python-level vocabulary shared by the whole model: optional values,
    raised exceptions, JSON values with Python truthiness, and the small
    list facts (`in`, no duplicates, `zip`) the scripts rely on. */
module Py {

  /** `None` or a value. */
  datatype Option<+T> = None | Some(value: T)

  /** The exceptions the modelled code can raise on its reachable paths. */
  datatype Exception =
    | ArgMinOfEmpty               // np.argmin over an empty distance array
    | ImageUnreadable(path: string)  // cv2.cvtColor on the None that cv2.imread returns
    | NameUndefined(name: string)    // a local read before any assignment
    | NotADict                       // `.get` called on a JSON body that is not an object
    | FileNotFound(path: string)     // `open` for writing in a directory that does not exist

  /** Either a normal return or an exception that propagates to the caller. */
  datatype Result<+T> = Ok(value: T) | Raised(error: Exception)

  /** A JSON value as Flask and `requests` decode it (floats are not modelled). */
  datatype Value =
    | Null
    | Bool(b: bool)
    | Int(i: int)
    | Str(s: string)
    | List(items: seq<Value>)
    | Object(fields: map<string, Value>)

  /** Python truthiness of a decoded JSON value: `None`, `False`, `0`, `""`,
      `[]` and `{}` are falsy, everything else is truthy. */
  predicate Truthy(v: Value) {
    match v
    case Null => false
    case Bool(b) => b
    case Int(i) => i != 0
    case Str(s) => s != ""
    case List(items) => items != []
    case Object(fields) => fields != map[]
  }

  /** `d.get(key)`: the stored value, or `None` when the key is absent. */
  function Get(d: map<string, Value>, key: string): (r: Value)
    ensures key !in d ==> r == Null
    ensures key in d ==> r == d[key]
  {
    if key in d then d[key] else Null
  }

  /** No element occurs twice. */
  predicate NoDup<T(==)>(s: seq<T>) {
    forall i, j :: 0 <= i < j < |s| ==> s[i] != s[j]
  }

  /** The set of elements of a list. */
  function Elems<T(==)>(s: seq<T>): set<T> {
    set x | x in s
  }

  /** The elements of a non-empty list are its head and those of its tail. */
  lemma ElemsCons<T>(s: seq<T>)
    requires |s| > 0
    ensures Elems(s) == {s[0]} + Elems(s[1..])
  {
    assert s == [s[0]] + s[1..];
  }

  /** Concatenation is associative. */
  lemma AppendAssoc<T>(x: seq<T>, y: seq<T>, z: seq<T>)
    ensures x + y + z == x + (y + z)
  {
  }

  /** A prefix of a prefix is a prefix. */
  lemma PrefixOfPrefix<T>(s: seq<T>, p: seq<T>, q: seq<T>)
    requires |q| <= |p| <= |s| && s[..|p|] == p && p[..|q|] == q
    ensures s[..|q|] == q
  {
    assert s[..|q|] == s[..|p|][..|q|];
  }

  /** What follows a prefix `q` of `s` is what follows it in the longer
      prefix `p`, then what follows `p`. */
  lemma SuffixSplit<T>(s: seq<T>, p: seq<T>, q: seq<T>)
    requires |q| <= |p| <= |s| && s[..|p|] == p && p[..|q|] == q
    ensures forall x :: x in s[|q|..] <==> x in p[|q|..] || x in s[|p|..]
  {
    assert s[|q|..] == p[|q|..] + s[|p|..];
  }

  /** Number of pairs Python's `zip(a, b)` yields. */
  function ZipLen<A, B>(a: seq<A>, b: seq<B>): (n: nat)
    ensures n <= |a| && n <= |b|
    ensures n == |a| || n == |b|
  {
    if |a| <= |b| then |a| else |b|
  }

  /** The second components of `zip(a, b)`, in iteration order. */
  function ZipSeconds<A, B>(a: seq<A>, b: seq<B>): (r: seq<B>)
    ensures |r| == ZipLen(a, b)
    ensures forall i :: 0 <= i < |r| ==> r[i] == b[i]
    ensures |a| == |b| ==> r == b
  {
    b[..ZipLen(a, b)]
  }
}

=== FILE: session_log.dfy ===
/** Attendance bookkeeping inside one Streamlit session: the
    `marked_attendance_names` list that `log_attendance` maintains (the same
    function in SmartMark.py and attendance.py), the reachable recognition
    branch of SmartMark.py, and the `recognized_names` set that attendance.py
    consults before logging. Every call of `log_attendance` also writes an
    "Attendance registered" line; the model records those calls, in order,
    as `calls`. */
module SessionLog {
  import opened Py
  import opened Facerec

  /** `log_attendance(name, enrollment)`: `name` joins the list only when it
      is not already there. The enrollment number is only displayed. */
  function LogAttendance(marked: seq<string>, name: string): (r: seq<string>)
    ensures name in r
    ensures name in marked ==> r == marked
    ensures Elems(r) == Elems(marked) + {name}
    ensures |marked| <= |r| <= |marked| + 1 && r[..|marked|] == marked
    ensures NoDup(marked) ==> NoDup(r)
  {
    if name in marked then marked else marked + [name]
  }

  /** Logging the same name twice leaves the list as logging it once. */
  lemma LogAttendanceIdempotent(marked: seq<string>, name: string)
    ensures LogAttendance(LogAttendance(marked, name), name) == LogAttendance(marked, name)
  {
  }

  /** `log_attendance` called on every name of a list, in order. */
  function LogAll(marked: seq<string>, names: seq<string>): (r: seq<string>)
    ensures Elems(r) == Elems(marked) + Elems(names)
    ensures |marked| <= |r| <= |marked| + |names| && r[..|marked|] == marked
    ensures NoDup(marked) ==> NoDup(r)
    decreases |names|
  {
    if |names| == 0 then marked
    else
      var next := LogAttendance(marked, names[0]);
      var r := LogAll(next, names[1..]);
      ElemsCons(names);
      assert r[..|marked|] == r[..|next|][..|marked|];
      r
  }

  /** Reference for what logging `names` adds to `marked`: each name that
      is not in `marked` and has not occurred earlier in `names`, in the
      order of `names`. */
  function Fresh(marked: seq<string>, names: seq<string>): seq<string>
    decreases |names|
  {
    if |names| == 0 then []
    else
      var earlier := names[..|names| - 1];
      var last := names[|names| - 1];
      if last in marked || last in earlier then Fresh(marked, earlier)
      else Fresh(marked, earlier) + [last]
  }

  /** `Fresh` holds exactly the names of `names` that are not in `marked`. */
  lemma {:induction false} FreshMembers(marked: seq<string>, names: seq<string>)
    ensures forall x :: x in Fresh(marked, names) <==> x in names && x !in marked
    decreases |names|
  {
    if |names| > 0 {
      var earlier := names[..|names| - 1];
      FreshMembers(marked, earlier);
      assert names == earlier + [names[|names| - 1]];
    }
  }

  /** Logging one more name after a list is logging it last. */
  lemma {:induction false} LogAllSnoc(marked: seq<string>, names: seq<string>, x: string)
    ensures LogAll(marked, names + [x]) == LogAttendance(LogAll(marked, names), x)
    decreases |names|
  {
    if |names| == 0 {
      assert names + [x] == [x];
      assert [x][1..] == [];
    } else {
      assert (names + [x])[1..] == names[1..] + [x];
      LogAllSnoc(LogAttendance(marked, names[0]), names[1..], x);
    }
  }

  /** Logging a list of names keeps the list and then appends the fresh
      names, in the order they are first logged. */
  lemma {:induction false} LogAllFresh(marked: seq<string>, names: seq<string>)
    ensures LogAll(marked, names) == marked + Fresh(marked, names)
    decreases |names|
  {
    if |names| > 0 {
      var earlier := names[..|names| - 1];
      var last := names[|names| - 1];
      assert names == earlier + [last];
      LogAllFresh(marked, earlier);
      LogAllSnoc(marked, earlier, last);
      FreshMembers(marked, earlier);
      LogFreshStep(marked, Fresh(marked, earlier), earlier, last);
    }
  }

  /** One more name logged after the fresh names of `earlier`. */
  lemma LogFreshStep(marked: seq<string>, before: seq<string>, earlier: seq<string>, last: string)
    requires forall x :: x in before <==> x in earlier && x !in marked
    ensures LogAttendance(marked + before, last) ==
      marked + (if last in marked || last in earlier then before else before + [last])
  {
    if last in marked || last in earlier {
      assert last in marked + before;
    } else {
      assert last !in marked + before;
      AppendAssoc(marked, before, [last]);
    }
  }

  /** How the SmartMark.py recognition branch ends. */
  datatype Notice =
    | LoginFirst        // no enrollment number in the session
    | WebcamFailed      // the camera stopped delivering frames before any face
    | AttendanceMarked  // a frame with at least one face was logged
    | DetectionRaised(error: Exception)  // detection raised

  /** Session state after the branch, with the `log_attendance` calls made. */
  datatype BranchOutcome = BranchOutcome(marked: seq<string>, calls: seq<string>, notice: Notice)

  /** Index of the first frame on which detection raised or found a face;
      `|frames|` when there is none. */
  function FirstWithFaces(frames: seq<Result<Detection>>): (k: nat)
    ensures k <= |frames|
    ensures forall i :: 0 <= i < k ==> frames[i].Ok? && frames[i].value.names == []
    ensures k < |frames| ==> frames[k].Raised? || frames[k].value.names != []
  {
    if |frames| == 0 then 0
    else if frames[0].Raised? || frames[0].value.names != [] then 0
    else 1 + FirstWithFaces(frames[1..])
  }

  /** The reachable "Face Recognition" branch of SmartMark.py. `frames` are
      the detector's results for the frames the webcam delivers before a
      read fails. The first frame with any face has all its names logged,
      "Unknown" included, and ends the loop. */
  function SmartMarkRecognize(enrollment: Option<string>, frames: seq<Result<Detection>>,
                              marked: seq<string>): (r: BranchOutcome)
    ensures enrollment.None? ==> r == BranchOutcome(marked, [], LoginFirst)
    ensures !r.notice.AttendanceMarked? ==> r.marked == marked && r.calls == []
    ensures r.notice.WebcamFailed? <==>
      enrollment.Some? && forall i :: 0 <= i < |frames| ==> frames[i].Ok? && frames[i].value.names == []
    ensures r.notice.AttendanceMarked? ==>
      exists k :: 0 <= k < |frames| && frames[k].Ok? && frames[k].value.names != [] &&
        (forall i :: 0 <= i < k ==> frames[i].Ok? && frames[i].value.names == []) &&
        r.calls == frames[k].value.names &&
        Elems(r.marked) == Elems(marked) + Elems(frames[k].value.names)
    ensures r.notice.AttendanceMarked? ==> r.marked == marked + Fresh(marked, r.calls)
    ensures r.notice.LoginFirst? <==> enrollment.None?
    ensures r.notice.AttendanceMarked? <==>
      (enrollment.Some? && FirstWithFaces(frames) < |frames| && frames[FirstWithFaces(frames)].Ok?)
    ensures r.notice.AttendanceMarked? ==> r.calls == frames[FirstWithFaces(frames)].value.names
    ensures r.notice.DetectionRaised? <==>
      (enrollment.Some? && FirstWithFaces(frames) < |frames| && frames[FirstWithFaces(frames)].Raised?)
    ensures r.notice.DetectionRaised? ==> r.notice.error == frames[FirstWithFaces(frames)].error
    ensures |marked| <= |r.marked| && r.marked[..|marked|] == marked
    ensures NoDup(marked) ==> NoDup(r.marked)
  {
    if enrollment.None? then BranchOutcome(marked, [], LoginFirst)
    else
      var k := FirstWithFaces(frames);
      if k == |frames| then BranchOutcome(marked, [], WebcamFailed)
      else
        match frames[k]
        case Raised(e) => BranchOutcome(marked, [], DetectionRaised(e))
        case Ok(d) =>
          var logged := LogAll(marked, d.names);
          LogAllFresh(marked, d.names);
          assert Elems(logged) == Elems(marked) + Elems(frames[k].value.names);
          BranchOutcome(logged, d.names, AttendanceMarked)
  }

  /** Frames after the first one with a face are never looked at. */
  lemma SmartMarkIgnoresLaterFrames(enrollment: Option<string>, frames: seq<Result<Detection>>,
                                    later: seq<Result<Detection>>, marked: seq<string>)
    requires FirstWithFaces(frames) < |frames|
    ensures SmartMarkRecognize(enrollment, frames + later, marked) == SmartMarkRecognize(enrollment, frames, marked)
  {
    FirstWithFacesAppend(frames, later);
  }

  lemma {:induction false} FirstWithFacesAppend(frames: seq<Result<Detection>>, later: seq<Result<Detection>>)
    requires FirstWithFaces(frames) < |frames|
    ensures FirstWithFaces(frames + later) == FirstWithFaces(frames)
    ensures (frames + later)[FirstWithFaces(frames)] == frames[FirstWithFaces(frames)]
  {
    if !(frames[0].Raised? || frames[0].value.names != []) {
      assert (frames + later)[1..] == frames[1..] + later;
      FirstWithFacesAppend(frames[1..], later);
    }
  }

  /** A face the library cannot place is still logged: "Unknown" in the
      first frame with faces ends up in the attendance list. */
  lemma SmartMarkLogsUnknown(enrollment: string, frames: seq<Result<Detection>>, marked: seq<string>)
    requires FirstWithFaces(frames) < |frames|
    requires frames[FirstWithFaces(frames)].Ok?
    requires Unknown in frames[FirstWithFaces(frames)].value.names
    ensures Unknown in SmartMarkRecognize(Some(enrollment), frames, marked).marked
  {
    var names := frames[FirstWithFaces(frames)].value.names;
    assert Unknown in Elems(names);
    assert Unknown in Elems(LogAll(marked, names));
  }

  /** attendance.py's session state: `recognized_names`, the
      `marked_attendance_names` list and the `log_attendance` calls made. */
  datatype Tracker = Tracker(recognized: set<string>, marked: seq<string>, calls: seq<string>)

  /** The state the script creates on a session's first run. */
  function NewTracker(): (t: Tracker)
    ensures Consistent(t) && t.recognized == {}
  {
    Tracker({}, [], [])
  }

  /** What attendance.py keeps true: the list holds exactly the recognized
      names, each once, in the order `log_attendance` was called for them. */
  predicate Consistent(t: Tracker) {
    t.marked == t.calls && NoDup(t.calls) && Elems(t.calls) == t.recognized
  }

  /** The loop body on the picture and webcam paths for one (box, name)
      pair: a name is logged the first time it is recognized, and never
      again. "Unknown" is treated like any other name. */
  function Observe(t: Tracker, name: string): (r: Tracker)
    ensures r.recognized == t.recognized + {name}
    ensures name in t.recognized ==> r == t
    ensures name !in t.recognized ==> r.calls == t.calls + [name]
    ensures Consistent(t) ==> Consistent(r)
  {
    if name !in t.recognized then
      Tracker(t.recognized + {name}, LogAttendance(t.marked, name), t.calls + [name])
    else t
  }

  /** `Observe` over names in order. */
  function ObserveAll(t: Tracker, names: seq<string>): (r: Tracker)
    decreases |names|
  {
    if |names| == 0 then t else ObserveAll(Observe(t, names[0]), names[1..])
  }

  /** Over a list of names, the recognized set grows by exactly those names,
      earlier calls stay as they were, a call is made for a name exactly when
      it was not recognized before, and the session stays consistent. */
  lemma {:induction false} ObserveAllSpec(t: Tracker, names: seq<string>)
    ensures ObserveAll(t, names).recognized == t.recognized + Elems(names)
    ensures |t.calls| <= |ObserveAll(t, names).calls|
    ensures ObserveAll(t, names).calls[..|t.calls|] == t.calls
    ensures forall n :: n in ObserveAll(t, names).calls[|t.calls|..] <==> n in names && n !in t.recognized
    ensures Consistent(t) ==> Consistent(ObserveAll(t, names))
    decreases |names|
  {
    if |names| > 0 {
      var t' := Observe(t, names[0]);
      ObserveAllSpec(t', names[1..]);
      var r := ObserveAll(t', names[1..]);
      assert names == [names[0]] + names[1..];
      ElemsCons(names);
      PrefixOfPrefix(r.calls, t'.calls, t.calls);
      SuffixSplit(r.calls, t'.calls, t.calls);
      if names[0] !in t.recognized {
        assert t'.calls[|t.calls|..] == [names[0]];
      } else {
        assert t'.calls[|t.calls|..] == [];
      }
    }
  }

  /** Names already recognized cause no change at all. */
  lemma {:induction false} ObserveAllKnown(t: Tracker, names: seq<string>)
    requires forall n :: n in names ==> n in t.recognized
    ensures ObserveAll(t, names) == t
    decreases |names|
  {
    if |names| > 0 {
      ObserveAllKnown(t, names[1..]);
    }
  }

  /** Presenting the same names a second time in a session logs nothing
      new: the dedup is idempotent. */
  lemma ObserveAllIdempotent(t: Tracker, names: seq<string>)
    ensures ObserveAll(ObserveAll(t, names), names) == ObserveAll(t, names)
  {
    ObserveAllSpec(t, names);
    ObserveAllKnown(ObserveAll(t, names), names);
  }

  /** Observing two lists in turn is observing their concatenation. */
  lemma {:induction false} ObserveAllAppend(t: Tracker, a: seq<string>, b: seq<string>)
    ensures ObserveAll(t, a + b) == ObserveAll(ObserveAll(t, a), b)
    decreases |a|
  {
    if |a| > 0 {
      assert (a + b)[1..] == a[1..] + b;
      ObserveAllAppend(Observe(t, a[0]), a[1..], b);
    } else {
      assert a + b == b;
    }
  }

  /** In a consistent session, observing a list of names makes the calls
      `log_attendance` would: the fresh names, in the order of the list. */
  lemma {:induction false} ObserveAllFresh(t: Tracker, names: seq<string>)
    requires Consistent(t)
    ensures ObserveAll(t, names).calls == t.calls + Fresh(t.calls, names)
    decreases |names|
  {
    if |names| == 0 {
      assert t.calls + [] == t.calls;
    } else {
      var earlier := names[..|names| - 1];
      var last := names[|names| - 1];
      assert names == earlier + [last];
      ObserveAllFresh(t, earlier);
      ObserveAllSpec(t, earlier);
      ObserveAllAppend(t, earlier, [last]);
      var u := ObserveAll(t, earlier);
      assert ObserveAll(u, [last]) == Observe(u, last);
      assert last in u.recognized <==> last in t.calls || last in earlier;
      if last !in u.recognized {
        AppendAssoc(t.calls, Fresh(t.calls, earlier), [last]);
      }
    }
  }

  /** Reference for the picture and webcam paths: the paired names of every
      detection, in order, up to the first detection that raised. */
  function Seen(frames: seq<Result<Detection>>): seq<string> {
    if |frames| == 0 || frames[0].Raised? then [] else PairedNames(frames[0].value) + Seen(frames[1..])
  }

  /** The first exception detection raised, if any. */
  function FirstError(frames: seq<Result<Detection>>): (e: Option<Exception>)
    ensures e.None? <==> forall i :: 0 <= i < |frames| ==> frames[i].Ok?
  {
    if |frames| == 0 then None
    else if frames[0].Raised? then Some(frames[0].error)
    else FirstError(frames[1..])
  }

  /** The picture path (one detection per uploaded image) and the webcam
      path (one per frame while the stream runs) of attendance.py: every
      paired name goes through the dedup; an exception from detection ends
      the run. */
  function ProcessFrames(t: Tracker, frames: seq<Result<Detection>>): (r: (Tracker, Option<Exception>))
    ensures r.1 == FirstError(frames)
    decreases |frames|
  {
    if |frames| == 0 then (t, None)
    else
      match frames[0]
      case Raised(e) => (t, Some(e))
      case Ok(d) => ProcessFrames(ObserveAll(t, PairedNames(d)), frames[1..])
  }

  /** Processing detections is observing everything they paired before the
      first exception. */
  lemma {:induction false} ProcessFramesIsObserveAll(t: Tracker, frames: seq<Result<Detection>>)
    ensures ProcessFrames(t, frames).0 == ObserveAll(t, Seen(frames))
    decreases |frames|
  {
    if |frames| > 0 && frames[0].Ok? {
      ProcessFramesIsObserveAll(ObserveAll(t, PairedNames(frames[0].value)), frames[1..]);
      ObserveAllAppend(t, PairedNames(frames[0].value), Seen(frames[1..]));
    }
  }

  /** Over a whole session run, `recognized_names` only grows, it grows by
      the names seen, and `log_attendance` is called at most once per name:
      exactly for the names seen that were not recognized before. */
  lemma ProcessFramesDedup(t: Tracker, frames: seq<Result<Detection>>)
    requires Consistent(t)
    ensures t.recognized <= ProcessFrames(t, frames).0.recognized
    ensures ProcessFrames(t, frames).0.recognized == t.recognized + Elems(Seen(frames))
    ensures Consistent(ProcessFrames(t, frames).0)
    ensures NoDup(ProcessFrames(t, frames).0.calls)
    ensures |t.calls| <= |ProcessFrames(t, frames).0.calls|
    ensures forall n :: n in ProcessFrames(t, frames).0.calls[|t.calls|..] <==>
      n in Seen(frames) && n !in t.recognized
    ensures ProcessFrames(t, frames).0.calls == t.calls + Fresh(t.calls, Seen(frames))
  {
    ProcessFramesIsObserveAll(t, frames);
    ObserveAllSpec(t, Seen(frames));
    ObserveAllFresh(t, Seen(frames));
  }
}
